=== FILE: README.md ===
# fastify-request-logs, modelled in Dafny

This project models the core of a Fastify plugin that gathers every log entry written while one HTTP request is handled into a single record, and prints that record when the response is sent. The model covers:

- the per-request `Logger` and its record `{INFO, LOGS, RESPONSE, ERRORS?, ERROR_RESPONSE?}`;
- `add` and `error`, which resolve key collisions by probing `"<key> (1)"`, `"<key> (2)"`, …;
- `finish`, which stores the response, injects `statusCode` and prints the record at a console level and colour;
- the constructor and `getBody`, which unwraps a message-queue push envelope;
- `RequestContext`, the ambient "current logger" with `runWithLogger`, `getLogger` and `getCurrentLogger`, and the free functions `getRequestLogger`, `addLog` and `addError`;
- the two Fastify hooks (`preHandler`, `onSend`);
- the small predicates `isPubsub`, `isObjectLike` and `hasProperty`.

Everything is pure functions over immutable values:

- JavaScript values are the datatype `Js.Value`: `undefined`, `null`, booleans, integers, strings, arrays and plain objects as `map<string, Value>`.
- A logger is a `Logger.Logger` value; `add`, `error` and `finish` return the next one.
- Loggers are shared objects, so the context and the hooks work on a heap `map<LoggerRef, Logger>`.
- The async-local store is an explicit `Option<LoggerRef>` handed to the code that runs on a chain.

Files and modules:

- `wrappers.dfy`: `Option`, `Result`.
- `keys.dfy`: decimal rendering of counters and the suffixed key.
- `js.dfy`: values, `typeof`, truthiness, `in`, property assignment.
- `probe.dfy`: the collision probe and its termination proof.
- `fn.dfy`: `isObjectLike`, `hasProperty`.
- `pubsub.dfy`: `isPubsub`.
- `logger.dfy`: the `Logger` class.
- `logger_properties.dfy`: properties of call sequences on one logger.
- `request_context.dfy`: the ambient context and interleaved requests.
- `hooks.dfy`: the plugin's hooks.

Behaviour of the code that the model keeps on purpose:

- **Collisions test truthiness.** `add` and `error` test whether the stored value is truthy, not whether the key is present (`src/domain/services/Logger.ts:16`, `:34`). So a falsy `LOGS` entry (`false`, `0`, `""`, `null`) is overwritten in place (`LoggerProperties.AddOverwritesFalsyEntry`).
- **Inherited names count as taken.** The same test reads inherited members of `Object.prototype`. So `add("toString", v)` stores under `"toString (1)"` even on an empty `LOGS`.
- **`ERRORS` never loses an entry.** Every `ERRORS` entry is an object, so a repeated error key never overwrites.
- **Setting `statusCode` can throw.** The compiled module runs in strict mode. Setting `statusCode` on `null` (success branch), or on a truthy primitive (error branch), throws a TypeError. `finish` catches it and dumps the record instead of printing it.
- **Cyan includes 300.** The colour is cyan for status codes 200 to 300 inclusive, red otherwise.
- **A second `finish` overwrites.** Nothing stops a second call; it overwrites the response fields.

Three more facts about the code that the model keeps:

- `preHandler` only defines `req.logger`. It does not bind the logger into `RequestContext`; binding is left to callers of `runWithLogger`.
- When a message-queue envelope is detected but decoding yields nothing, `getBody` stores the envelope's `message.data` string (`parse(decode(data)) ?? data`), not the raw body.
- `onSend` treats a payload as an error only when its `isError` is strictly `true` (`isError === true`); a merely truthy marker does not count.

## Model

| member | source | states |
|---|---|---|
| Keys.NatToString | src/domain/services/Logger.ts:20-21 | the counter in a suffixed key is written in canonical decimal: at least one digit, only digits, no leading zero |
| Keys.DigitsValueOfNatToString | src/domain/services/Logger.ts:20-21 | reading the rendered counter back as a number gives the counter |
| Keys.NatToStringInjective | src/domain/services/Logger.ts:20-21 | different counters render as different strings |
| Keys.Suffix | src/domain/services/Logger.ts:21 | the key `"<key> (<n>)"` starts with the key, then a space and `(`, and ends with `)` |
| Keys.SuffixInjective | src/domain/services/Logger.ts:17-21 | two probes of the same key with different counters never try the same key |
| Probe.SuffixNotInherited | src/domain/services/Logger.ts:20 | no suffixed key is an inherited Object.prototype member, so its slot reads only own entries |
| Probe.Pigeonhole | src/domain/services/Logger.ts:17-20 | if the first n-1 probes all hit taken slots, the map holds at least n-1 entries |
| Probe.ProbeFrom | src/domain/services/Logger.ts:17-20 | the do-while started at counter n stops at the first free suffixed slot at or after n, at most `|LOGS|+1` |
| Probe.FreeIndex | src/domain/services/Logger.ts:17-20 | the probe stops at the least n >= 1 whose slot is free; n <= `|LOGS|+1`, so it terminates |
| Probe.SlotFor | src/domain/services/Logger.ts:16-21 | the key written to is the key itself when its slot reads falsy, else the least free suffixed key, and it is free |
| Probe.LeastFreeSlotUnique | src/domain/services/Logger.ts:16-21 | exactly one key meets that description |
| Probe.SlotForIsOnlyChoice | src/domain/services/Logger.ts:16-21 | any key meeting the description is the one written to, and it reads falsy |
| Probe.Insert | src/domain/services/Logger.ts:16-25 | insertion writes the value at the least free slot, adds at most that key, changes no other entry, and keeps every truthy entry |
| Js.In | src/infrastructure/util/isPubsub.ts:7-9 | `in` raises on non-objects; it is true for own properties, and for any name that is not inherited it is exactly own-property |
| Fn.IsObjectLike | src/util/fn.ts:1-2 | object-like exactly for plain objects and arrays: never `null`, `undefined`, booleans, numbers or strings |
| Fn.HasProperty | src/util/fn.ts:3-4 | on an object, true exactly for its own keys; whenever true, `in` is true too |
| Fn.InheritedIsNotOwn | src/util/fn.ts:3-4 | an inherited name is seen by `in` but not by `hasProperty` |
| Fn.ArrayOwnKeys | src/util/fn.ts:3-4 | an array has no own property other than `length` and its indices |
| Fn.ArrayDigitNamesBeyondIndices | src/util/fn.ts:3-4 | digit names that are not index names, `"1"` on a one-element array and `"01"`, are not own properties of an array |
| Pubsub.IsPubsub | src/infrastructure/util/isPubsub.ts:3-15 | raises exactly when `message` is `null`; true exactly for an object with an object `message` that has `data` and `isBase64(data)`; false otherwise |
| Pubsub.NonObjectIsNotPubsub | src/infrastructure/util/isPubsub.ts:5-6 | a value that is not an object or array is never an envelope |
| Pubsub.TestEnvelopeDetected | test/blah.test.ts:5-15 | the test's body `{message: {data: <base64>, publishTime}}` is detected |
| Logger.GetBody | src/domain/services/Logger.ts:83-91 | a detected envelope becomes `parse(decode(data)) ?? data`; any other body is kept; a `null` message raises |
| Logger.New | src/domain/services/Logger.ts:92-107 | INFO holds exactly url, method, params, normalised body and the three labels; LOGS and RESPONSE are `{}`; no ERRORS or ERROR_RESPONSE; fails exactly when getBody raises |
| Logger.Add | src/domain/services/Logger.ts:13-29 | with only_errors nothing changes; otherwise LOGS becomes LOGS with the value at the least free slot, and INFO, ERRORS, RESPONSE, ERROR_RESPONSE and options are unchanged |
| Logger.Error | src/domain/services/Logger.ts:31-45 | ERRORS (created if absent) gets `{value, code}` at the least free slot, whatever only_errors says; nothing else changes |
| Logger.Finish | src/domain/services/Logger.ts:47-82 | exactly one console event, carrying the record as it stands; INFO, LOGS and ERRORS are unchanged; success leaves ERROR_RESPONSE alone and error leaves RESPONSE alone; when the record is printed (nothing threw), the level is error iff isError, colour appears iff colours are on, and it is cyan iff 200 <= status <= 300; when something threw, the event is a `Failed` dump, with no level or colour taken from isError or the options |
| LoggerProperties.OnlyErrorsKeepsLogs | src/domain/services/Logger.ts:14 | with only_errors, no sequence of add/error/finish calls changes LOGS |
| LoggerProperties.AddWritesSlot | src/domain/services/Logger.ts:16-25 | add writes its value to the least free slot of LOGS and nowhere else |
| LoggerProperties.FillStep | src/domain/services/Logger.ts:16-25 | after k truthy adds under a fresh key, the next add lands in `"<key> (k)"` |
| LoggerProperties.RepeatedAdds | src/domain/services/Logger.ts:16-25 | truthy values added under a fresh key land at the key, then `"<key> (1)"`, `"<key> (2)"`, …; other entries survive |
| LoggerProperties.AddTwiceKeepsBoth | src/domain/services/Logger.ts:16-25 | after adding a truthy value, a second add of the same key keeps the first and stores the second at `"<key> (1)"` |
| LoggerProperties.AddOverwritesFalsyEntry | src/domain/services/Logger.ts:16-25 | a falsy LOGS entry is overwritten in place by the next add of its key |
| LoggerProperties.ErrorNeverOverwrites | src/domain/services/Logger.ts:33-41 | while all ERRORS entries are truthy, error adds one new key, keeps every old entry, and keeps all entries truthy |
| LoggerProperties.RunKeepsErrorsTruthy | src/domain/services/Logger.ts:31-41 | no sequence of calls puts a falsy value into ERRORS |
| LoggerProperties.ErrorsAreNeverOverwritten | src/domain/services/Logger.ts:31-41 | for any logger built by the constructor and any calls after, error grows ERRORS by one and loses nothing |
| LoggerProperties.FinishSuccessRecordsStatus | src/domain/services/Logger.ts:54-60 | a success body that is an object, or JSON text of one, becomes RESPONSE with statusCode set, and is printed with console.log |
| LoggerProperties.FinishErrorRecordsStatus | src/domain/services/Logger.ts:61-69 | an error body that is an object becomes ERROR_RESPONSE with statusCode set, RESPONSE keeps its value, and it is printed with console.error |
| LoggerProperties.ErrorFinishKeepsEmptyResponse | src/domain/services/Logger.ts:61-69 | an error finish on a new logger leaves RESPONSE as the initial `{}` |
| LoggerProperties.FinishBadJsonDumpsRecord | src/domain/services/Logger.ts:56-57 | payload text that JSON.parse rejects leaves the record unchanged and dumps it with the SyntaxError |
| LoggerProperties.FinishNullResponseThrows | src/domain/services/Logger.ts:59-60 | a `null` success body is stored, and setting its statusCode throws, so the record is dumped |
| LoggerProperties.FinishPrimitiveErrorThrows | src/domain/services/Logger.ts:67-68 | a truthy primitive error body is stored, and setting its statusCode throws, so the record is dumped |
| LoggerProperties.FinishPrimitiveSuccessUnchanged | src/domain/services/Logger.ts:55-59 | a primitive success body, the empty string included, is stored as is and printed |
| LoggerProperties.FinishFalsyErrorUnchanged | src/domain/services/Logger.ts:63-68 | a falsy error body is stored as is, without statusCode, and printed with console.error |
| LoggerProperties.FinishArrayStoredAndPrinted | src/domain/services/Logger.ts:54-69 | an array body, success or error, is stored unchanged in RESPONSE or ERROR_RESPONSE, the other field is kept, and the record is printed |
| RequestContext.GetInstance | src/context/RequestContext.ts:12-17 | the first call creates and records the instance; later calls return the recorded one and change nothing |
| RequestContext.GetInstanceIsSingleton | src/context/RequestContext.ts:12-17 | any number of further calls return the instance of the first |
| RequestContext.GetLogger | src/context/RequestContext.ts:23-25 | gives no logger exactly when none is bound on the calling chain, and otherwise the bound one |
| RequestContext.GetLoggerInsideRun | src/context/RequestContext.ts:19-33 | inside runWithLogger(l, …), getLogger gives l and getCurrentLogger succeeds with l; in nested runs the innermost logger wins; outside every run getLogger gives none and getCurrentLogger fails with the no-context message |
| RequestContext.AddLogInsideRun | src/context/RequestContext.ts:19-21 | addLog called inside runWithLogger(l, …) changes logger l exactly as add does, and leaves every other logger as it was |
| RequestContext.GetCurrentLogger | src/context/RequestContext.ts:27-33 | fails with "No logger context available. …" exactly when no logger is bound; otherwise returns the bound logger |
| RequestContext.GetRequestLogger | src/context/RequestContext.ts:37-39 | fails with the no-context message exactly when no logger is bound, otherwise returns the bound logger; afterwards the singleton exists, an existing one is kept, and no logger changes |
| RequestContext.GetRequestLoggerInsideRun | src/context/RequestContext.ts:19-21 | inside runWithLogger(l, …), getRequestLogger returns l; outside every run it fails with the no-context message |
| RequestContext.AddLog | src/context/RequestContext.ts:41-46 | no logger changes when none is bound; otherwise exactly the bound logger changes, as by add |
| RequestContext.AddError | src/context/RequestContext.ts:48-53 | no logger changes when none is bound; otherwise exactly the bound logger changes, as by error |
| RequestContext.InterleavingIsIsolated | src/context/RequestContext.ts:41-53 | after any interleaving of addLog/addError from many chains, each logger equals that logger run on its own chain's calls alone, in order |
| RequestContext.UnboundTasksAreNoOps | src/context/RequestContext.ts:41-53 | addLog/addError calls made outside any context change no logger |
| Hooks.IsErrorPayload | src/index.ts:22-25 | a payload is an error exactly when it is a plain object with its own `isError` strictly equal to `true` |
| Hooks.ErrorNeedsStrictTrue | src/index.ts:22-25 | a string or array payload is never an error, nor is any object whose own `isError` is absent or anything other than `true` |
| Hooks.PreHandler | src/index.ts:10-15 | attaches a new logger, built from the request, under a fresh reference, then calls done, exactly when construction succeeds and no logger is attached yet; otherwise raises a TypeError and changes nothing |
| Hooks.OnSend | src/index.ts:16-40 | done is called once, last; with a logger, finish is called once with (payload, isError, status), only that logger's record changes (the payload value itself is not shown gaining `statusCode`, see "## Left out"), and nothing is sent; without one, no finish, no logger changes, and the payload is sent unchanged |
| Hooks.AttachedLoggerIsFinished | src/index.ts:10-26 | a request that passed preHandler is finished by onSend, and the printed record carries the INFO built from the request as it was at construction (no later mutation of `req.body` or `req.params` is modelled, see "## Left out") |

## Left out

- Asynchronous propagation of the store. `AsyncLocalStorage` semantics across `await` and real concurrency are replaced by an explicit store per chain. Interleaving is modelled as a sequence of calls tagged with the store each chain sees.
- `src/index.ts:12` calls `new Logger(req)` without options. As written, the constructor then fails on `this.options.domain`. The model gives the constructor explicit options, as its signature declares.
- Foreign functions are parameters of `Logger.Foreign` and are not defined. These are `JSON.parse`, `is-base64`, and the utility `decode` and `parse`. The utility module, `COLORS` and lodash are not part of this model.
- Lodash's `_.isObjectLike` and `_.has` are modelled by `Fn.IsObjectLike` and `Fn.HasProperty`. For the one-segment path `'isError'` they agree.
- `CircularJSON.stringify` and the console are not modelled. The printed record is the `Data` value itself, in a `Printed` or `Failed` event. Cyclic values cannot occur in this value model, so serialisation never fails.
- The error object that `finish` prints on failure is reduced to its kind (TypeError or SyntaxError).
- Logger.Finish: "exactly one console event" counts the catch path's two `console.log` calls (`src/domain/services/Logger.ts:79-80`, the error and then the record) as one `Failed` event.
- Numbers are integers. NaN, floats and `-0` are not modelled.
- Functions, symbols and bigints are not modelled as values.
- `Js.Get` reads own properties only. Inherited members of built-in prototypes are not represented, because the model reads only `isError`, `message` and `data`, which no prototype defines.
- Array `in` checks do not include `Array.prototype` method names.
- Setting a named property on an array keeps the array unchanged. JSON output drops such properties.
- The `catch` blocks of `add` and `error` are not modelled. Nothing in their `try` bodies can throw for string keys on plain objects.
- `console.log` of the two lines in `onSend`'s no-logger branch is reduced to one step each.
- The GCloud remote sink, the demo servers (`example.js`, `example-context.js`, `setup-gcloud-example.js`) and `src/domain/services/ParseError.ts` (unused by the core) are not part of this model.
- Fastify's own handling of a hook that raises is not modelled. `PreHandler` ends in a `Raised` step without calling `done`.
- Reference semantics of stored values. `add` and `error` store the caller's `value` by reference (`src/domain/services/Logger.ts:25`, `:41`), and the constructor keeps the request's own `params` as `INFO.__params`, and its own `body` as `INFO.__body` when the body is not an envelope (`src/domain/services/Logger.ts:90`, `:93`, `:98-99`). So a later mutation of any of these objects, by the caller or by a route handler between `preHandler` and `onSend`, shows up in the record `finish` serialises (`src/domain/services/Logger.ts:70`). The model stores each value as it is at the call or at construction; the INFO equality in `Hooks.AttachedLoggerIsFinished` holds for that snapshot.
- Hooks.OnSend: does not model mutation of the caller's payload. `finish` makes RESPONSE or ERROR_RESPONSE the payload object itself and then writes `statusCode` into it (`src/domain/services/Logger.ts:55-60`, `:63-68`). So after `onSend` calls `done()` (`src/index.ts:26`), the object payload Fastify carries on with has `statusCode` too; for an error outcome this always happens, since only objects are errors. `Hooks.OnSend` shows the record's copy gaining `statusCode` but not the payload value it was given.
- Key order. `LOGS`, `ERRORS` and `INFO` are JavaScript objects whose insertion order, with integer-like keys first, fixes the order of the printed JSON, including the place an overwritten falsy entry keeps. `map<string, Value>` has no order, so the model says nothing about the order of the printed keys.

=== FILE: fn.dfy ===
/** The value predicates of the utility module. */
module Fn {
  import opened Wrappers
  import opened Js
  import Keys

  /** `value !== null && typeof value === 'object'`. */
  function IsObjectLike(v: Value): (r: bool)
    ensures r <==> v.Obj? || v.Arr?
  {
    v != Null && TypeOf(v) == ObjectType
  }

  /** `Object.prototype.hasOwnProperty.call(obj, key)`; `obj` is typed `object`. */
  function HasProperty(o: Value, k: string): (r: bool)
    requires IsObjectLike(o)
    ensures o.Obj? ==> (r <==> k in o.props)
    ensures r ==> In(o, k) == Ok(true)
  {
    OwnProperty(o, k)
  }

  /** Inherited members are visible to `in` but are not own properties. */
  lemma InheritedIsNotOwn(m: map<string, Value>, k: string)
    requires k in ObjectPrototypeKeys && k !in m
    ensures In(Obj(m), k) == Ok(true)
    ensures !HasProperty(Obj(m), k)
  {
  }

  /** Own keys of an array are its indices and `length`, nothing else. */
  lemma ArrayOwnKeys(items: seq<Value>, k: string)
    requires k != "length" && !IsIndexKey(items, k)
    ensures !HasProperty(Arr(items), k)
  {
  }

  /**
   * Digit names that are not indices are not own either: `"1"` past the end
   * of a one-element array, and `"01"`, which is no index's canonical name.
   */
  lemma ArrayDigitNamesBeyondIndices(v: Value)
    ensures !HasProperty(Arr([v]), "1")
    ensures !HasProperty(Arr([v, v]), "01")
  {
    assert !IsIndexKey([v], "1") by {
      assert Keys.NatToString(0) == "0";
    }
    assert !IsIndexKey([v, v], "01") by {
      forall i | 0 <= i < 2
        ensures Keys.NatToString(i) != "01"
      {
        assert Keys.NatToString(i) == [Keys.DigitChar(i)];
      }
    }
  }
}

=== FILE: hooks.dfy ===
/**
 * The two host hooks the plugin registers: `preHandler` attaches a fresh
 * logger to the request, `onSend` classifies the payload and finishes the
 * logger, or forwards the payload when the request carries none.
 */
module Hooks {
  import opened Wrappers
  import opened Js
  import Fn
  import opened Logger

  /** The request as the hooks see it: its fields and the attached `logger` property, if any. */
  datatype Request = Request(model: RequestModel, logger: Option<LoggerRef>)

  datatype Reply = Reply(statusCode: int)

  /** What a hook does, in order. */
  datatype Step =
    | FinishCalled(logger: LoggerRef, payload: Value, isError: bool, statusCode: int)
    | Console(event: Event)
    | NotImplemented(url: string, httpMethod: string, statusCode: int, body: Value, response: Value)
    | EchoError(payload: Value)
    | Sent(payload: Value)
    | Done
    | Raised(error: JsError)

  datatype HookResult = HookResult(request: Request, loggers: Heap, steps: seq<Step>)

  /**
   * `_.isObjectLike(payload) && _.has(payload, 'isError') && payload?.isError === true`:
   * only an object with its own `isError` strictly equal to `true` is an error.
   */
  function IsErrorPayload(payload: Value): (r: bool)
    ensures r <==> payload.Obj? && "isError" in payload.props && payload.props["isError"] == Bool(true)
  {
    Fn.IsObjectLike(payload) && Fn.HasProperty(payload, "isError") && Get(payload, "isError") == Bool(true)
  }

  /**
   * A serialised (string) payload is never classified as an error, nor is
   * an array, nor an object whose own `isError` is absent or anything but
   * `true` (a truthy marker such as `"true"` or `1` included).
   */
  lemma ErrorNeedsStrictTrue(s: string, items: seq<Value>, props: map<string, Value>)
    requires "isError" in props ==> props["isError"] != Bool(true)
    ensures !IsErrorPayload(Str(s))
    ensures !IsErrorPayload(Arr(items))
    ensures !IsErrorPayload(Obj(props))
  {
  }

  /**
   * `preHandler`: construct a logger for the request, define it as the
   * request's `logger` property, call `done`. A throwing constructor, or a
   * `logger` property that is already defined, raises instead.
   */
  function PreHandler(req: Request, options: Options, f: Foreign, newRef: LoggerRef, loggers: Heap): (r: HookResult)
    requires newRef !in loggers
    ensures r.steps == [Done] <==> New(req.model, options, f).Ok? && req.logger.None?
    ensures r.steps == [Done] ==>
              && r.request == req.(logger := Some(newRef))
              && r.loggers == loggers[newRef := New(req.model, options, f).value]
    ensures r.steps != [Done] ==> r.steps == [Raised(TypeError)] && r.request == req && r.loggers == loggers
  {
    match New(req.model, options, f)
    case Err(e) => HookResult(req, loggers, [Raised(e)])
    case Ok(l) =>
      if req.logger.Some? then HookResult(req, loggers, [Raised(TypeError)])
      else HookResult(req.(logger := Some(newRef)), loggers[newRef := l], [Done])
  }

  /**
   * `onSend`: with a logger attached, finish it once with the payload, its
   * classification and the reply's status code; without one, print a
   * diagnostic and send the payload unchanged. Either way `done` is called
   * once, last.
   */
  function OnSend(req: Request, res: Reply, payload: Value, loggers: Heap, f: Foreign): (r: HookResult)
    requires req.logger.Some? ==> req.logger.value in loggers
    ensures r.request == req
    ensures |r.steps| >= 2 && r.steps[|r.steps| - 1] == Done
    ensures forall i :: 0 <= i < |r.steps| - 1 ==> r.steps[i] != Done
    ensures req.logger.Some? ==>
              && r.steps[0] == FinishCalled(req.logger.value, payload, IsErrorPayload(payload), res.statusCode)
              && (forall i :: 1 <= i < |r.steps| ==> !r.steps[i].FinishCalled? && !r.steps[i].Sent?)
              && r.loggers == loggers[req.logger.value :=
                   Finish(loggers[req.logger.value], f, payload, IsErrorPayload(payload), res.statusCode).logger]
    ensures req.logger.None? ==>
              && r.loggers == loggers
              && Sent(payload) in r.steps
              && (forall i :: 0 <= i < |r.steps| ==> !r.steps[i].FinishCalled?)
  {
    match req.logger
    case Some(ref) =>
      var isError := IsErrorPayload(payload);
      var fin := Finish(loggers[ref], f, payload, isError, res.statusCode);
      HookResult(req, loggers[ref := fin.logger],
                 [FinishCalled(ref, payload, isError, res.statusCode), Console(fin.output[0]), Done])
    case None =>
      HookResult(req, loggers,
                 [NotImplemented(req.model.url, req.model.httpMethod, res.statusCode, req.model.body, payload),
                  EchoError(payload), Sent(payload), Done])
  }

  /**
   * A request that went through `preHandler` is finished by `onSend`: the
   * record it prints carries the request's `INFO`.
   */
  lemma AttachedLoggerIsFinished(req: Request, options: Options, f: Foreign, newRef: LoggerRef,
                                 loggers: Heap, res: Reply, payload: Value)
    requires newRef !in loggers
    requires PreHandler(req, options, f, newRef, loggers).steps == [Done]
    ensures var pre := PreHandler(req, options, f, newRef, loggers);
            var sent := OnSend(pre.request, res, payload, pre.loggers, f);
      && sent.steps[0].FinishCalled? && sent.steps[0].logger == newRef
      && sent.steps[1].Console?
      && sent.steps[1].event.record.info == New(req.model, options, f).value.data.info
      && !(Sent(payload) in sent.steps)
  {
    var pre := PreHandler(req, options, f, newRef, loggers);
    var sent := OnSend(pre.request, res, payload, pre.loggers, f);
    assert sent.steps[1].event == Finish(pre.loggers[newRef], f, payload, IsErrorPayload(payload), res.statusCode).output[0];
  }
}

=== FILE: js.dfy ===
/**
 * The JavaScript values the logger handles: JSON-like data with integer
 * numbers, and the few language rules the source relies on (typeof,
 * truthiness, own and inherited properties, property assignment).
 */
module Js {
  import opened Wrappers
  import Keys

  datatype Value =
    | Undefined
    | Null
    | Bool(b: bool)
    | Num(n: int)
    | Str(s: string)
    | Arr(items: seq<Value>)
    | Obj(props: map<string, Value>)

  /** The answers of `typeof` that these values can give. */
  datatype JsType = UndefinedType | ObjectType | BooleanType | NumberType | StringType

  /** The exceptions the modelled code can raise. */
  datatype JsError = TypeError | SyntaxError

  function TypeOf(v: Value): JsType
  {
    match v
    case Undefined => UndefinedType
    case Null => ObjectType
    case Bool(_) => BooleanType
    case Num(_) => NumberType
    case Str(_) => StringType
    case Arr(_) => ObjectType
    case Obj(_) => ObjectType
  }

  /** JavaScript truthiness: `false`, `0`, `""`, `null` and `undefined` are falsy. */
  predicate Truthy(v: Value)
  {
    match v
    case Undefined => false
    case Null => false
    case Bool(b) => b
    case Num(n) => n != 0
    case Str(s) => s != ""
    case Arr(_) => true
    case Obj(_) => true
  }

  /**
   * Members every plain object inherits from Object.prototype. Each is a
   * function or (for `__proto__`) the prototype object, so reading one
   * through a plain object gives a truthy value.
   */
  const ObjectPrototypeKeys: set<string> := {
    "constructor", "hasOwnProperty", "isPrototypeOf", "propertyIsEnumerable",
    "toLocaleString", "toString", "valueOf", "__proto__",
    "__defineGetter__", "__defineSetter__", "__lookupGetter__", "__lookupSetter__"
  }

  /** `k` names an element of an array of these items: a canonical decimal index. */
  predicate IsIndexKey(items: seq<Value>, k: string)
  {
    exists i :: 0 <= i < |items| && k == Keys.NatToString(i)
  }

  /** `Object.prototype.hasOwnProperty.call(o, k)` on an object or array. */
  predicate OwnProperty(o: Value, k: string)
    requires o.Obj? || o.Arr?
  {
    match o
    case Obj(m) => k in m
    case Arr(items) => k == "length" || IsIndexKey(items, k)
  }

  /** The `in` operator: own or inherited properties; raises on non-objects. */
  function In(o: Value, k: string): (r: Result<bool, JsError>)
    ensures r.Err? <==> !(o.Obj? || o.Arr?)
    ensures r.Ok? && OwnProperty(o, k) ==> r.value
    ensures r.Ok? && k !in ObjectPrototypeKeys ==> (r.value <==> OwnProperty(o, k))
  {
    if o.Obj? || o.Arr? then Ok(OwnProperty(o, k) || k in ObjectPrototypeKeys)
    else Err(TypeError)
  }

  /**
   * `o?.k` for a property name that no built-in prototype defines: an own
   * property of an object, otherwise `undefined`.
   */
  function Get(o: Value, k: string): Value
  {
    if o.Obj? && k in o.props then o.props[k] else Undefined
  }

  /**
   * `o[k] = x` in strict-mode code (the compiled TypeScript module).
   * Objects gain the property. An array keeps it as a named property that
   * JSON serialisation drops, so its JSON-visible content is unchanged.
   * `null`, `undefined` and primitives raise a TypeError.
   */
  function SetProperty(o: Value, k: string, x: Value): Result<Value, JsError>
  {
    match o
    case Obj(m) => Ok(Obj(m[k := x]))
    case Arr(_) => Ok(o)
    case _ => Err(TypeError)
  }

  /** `a ?? b`: `b` when `a` is `null` or `undefined`, `a` otherwise. */
  function Coalesce(a: Value, b: Value): Value
  {
    if a.Null? || a.Undefined? then b else a
  }
}

=== FILE: keys.dfy ===
/**
 * Decimal rendering of counters and the disambiguated key `"<key> (<n>)"`
 * that the logger builds with a template literal when a key collides.
 */
module Keys {

  predicate IsDigit(c: char)
  {
    '0' <= c <= '9'
  }

  predicate AllDigits(s: string)
  {
    forall i :: 0 <= i < |s| ==> IsDigit(s[i])
  }

  function DigitChar(d: nat): (c: char)
    requires d < 10
    ensures IsDigit(c)
  {
    ('0' as int + d) as char
  }

  /** `${n}` for a non-negative integer: canonical decimal, no leading zeros. */
  function NatToString(n: nat): (s: string)
    ensures 1 <= |s|
    ensures AllDigits(s)
    ensures |s| > 1 ==> s[0] != '0'
    decreases n
  {
    if n < 10 then [DigitChar(n)]
    else NatToString(n / 10) + [DigitChar(n % 10)]
  }

  /** Reads a string of decimal digits back as a number. */
  function DigitsValue(s: string): nat
    requires AllDigits(s)
  {
    if s == [] then 0
    else 10 * DigitsValue(s[..|s| - 1]) + (s[|s| - 1] as int - '0' as int)
  }

  /** Reading back the rendering of `n` gives `n`. */
  lemma {:induction false} DigitsValueOfNatToString(n: nat)
    ensures DigitsValue(NatToString(n)) == n
    decreases n
  {
    var s := NatToString(n);
    if n >= 10 {
      assert s[..|s| - 1] == NatToString(n / 10);
      DigitsValueOfNatToString(n / 10);
    }
  }

  /** Distinct counters render as distinct strings. */
  lemma NatToStringInjective(a: nat, b: nat)
    requires NatToString(a) == NatToString(b)
    ensures a == b
  {
    DigitsValueOfNatToString(a);
    DigitsValueOfNatToString(b);
  }

  /** The key `"<key> (<n>)"` tried by the n-th probe of a colliding key. */
  function Suffix(key: string, n: nat): (s: string)
    ensures |s| == |key| + |NatToString(n)| + 3
    ensures s[..|key|] == key
    ensures s[|key|] == ' ' && s[|key| + 1] == '('
    ensures s[|s| - 1] == ')'
  {
    key + " (" + NatToString(n) + ")"
  }

  /** The digits of the counter can be cut back out of a suffixed key. */
  lemma SuffixDigits(key: string, n: nat)
    ensures var s := Suffix(key, n); s[|key| + 2 .. |s| - 1] == NatToString(n)
  {
    var d := NatToString(n);
    var s := Suffix(key, n);
    assert s == key + " (" + d + ")";
    forall i | 0 <= i < |d|
      ensures s[|key| + 2 + i] == d[i]
    {
    }
  }

  /** Probing a fixed key never produces the same suffixed key twice. */
  lemma SuffixInjective(key: string, a: nat, b: nat)
    requires Suffix(key, a) == Suffix(key, b)
    ensures a == b
  {
    SuffixDigits(key, a);
    SuffixDigits(key, b);
    NatToStringInjective(a, b);
  }
}

=== FILE: logger.dfy ===
/**
 * The per-request log aggregator: the record it keeps, its construction
 * from a request, collision-safe `add` / `error`, and `finish`, which
 * stores the response and emits the record on the console.
 */
module Logger {
  import opened Wrappers
  import opened Js
  import Probe
  import Pubsub

  /** The logger's configuration. */
  datatype Options = Options(
    onlyErrors: bool,
    colors: bool,
    domain: string,
    service: string,
    moduleLabel: string)

  /** The fields of the incoming request the logger reads. */
  datatype RequestModel = RequestModel(id: string, url: string, httpMethod: string, body: Value, params: Value)

  /**
   * The aggregated record. `LOGS`, `INFO` and `RESPONSE` always exist;
   * `ERROR_RESPONSE` and `ERRORS` are absent until first written.
   */
  datatype Data = Data(
    info: map<string, Value>,
    logs: map<string, Value>,
    response: Value,
    errorResponse: Option<Value>,
    errors: Option<map<string, Value>>)

  datatype Logger = Logger(options: Options, data: Data)

  /** Loggers are objects shared by reference; a heap maps references to their state. */
  type LoggerRef = nat
  type Heap = map<LoggerRef, Logger>

  /**
   * Library functions the logger calls but this model does not define:
   * `is-base64`, the utility `decode` and `parse`, and `JSON.parse`
   * (`None` when it throws a SyntaxError).
   */
  datatype Foreign = Foreign(
    isBase64: Value -> bool,
    decode: Value -> Value,
    parse: Value -> Value,
    jsonParse: string -> Option<Value>)

  /** `console.log` or `console.error`. */
  datatype Level = ConsoleLog | ConsoleError

  datatype Color = Cyan | Red

  /**
   * What `finish` writes on the console: the serialised record at a level,
   * optionally prefixed by a colour; or, when the body of `finish` throws,
   * the error followed by a dump of the record as it stood.
   */
  datatype Event =
    | Printed(level: Level, color: Option<Color>, record: Data)
    | Failed(cause: JsError, record: Data)

  datatype Finished = Finished(logger: Logger, output: seq<Event>)

  /**
   * `getBody`: an envelope whose data is base64 is replaced by its decoded
   * and parsed payload, or by the raw `data` when parsing gives nullish.
   * Any other body is kept. A `message: null` makes the envelope test raise.
   */
  function GetBody(body: Value, f: Foreign): (r: Result<Value, JsError>)
    ensures r.Err? <==> body.Obj? && "message" in body.props && body.props["message"] == Null
    ensures r.Ok? && !(Pubsub.IsEnvelope(body) && f.isBase64(Pubsub.EnvelopeData(body))) ==> r.value == body
    ensures Pubsub.IsEnvelope(body) && f.isBase64(Pubsub.EnvelopeData(body)) ==>
              r.Ok? && r.value == Coalesce(f.parse(f.decode(Pubsub.EnvelopeData(body))), Pubsub.EnvelopeData(body))
  {
    match Pubsub.IsPubsub(body, f.isBase64)
    case Err(e) => Err(e)
    case Ok(envelope) =>
      if envelope then
        var data := Get(Get(body, "message"), "data");
        Ok(Coalesce(f.parse(f.decode(data)), data))
      else Ok(body)
  }

  /** The constructor: request metadata and labels in `INFO`, empty `LOGS`, `RESPONSE = {}`. */
  function New(req: RequestModel, options: Options, f: Foreign): (r: Result<Logger, JsError>)
    ensures r.Err? <==> GetBody(req.body, f).Err?
    ensures r.Ok? ==>
      var d := r.value.data;
      && r.value.options == options
      && d.info.Keys == {"__url", "__method", "__params", "__body", "domain", "service", "module"}
      && d.info["__url"] == Str(req.url)
      && d.info["__method"] == Str(req.httpMethod)
      && d.info["__params"] == req.params
      && d.info["__body"] == GetBody(req.body, f).value
      && d.info["domain"] == Str(options.domain)
      && d.info["service"] == Str(options.service)
      && d.info["module"] == Str(options.moduleLabel)
      && d.logs == map[]
      && d.response == Obj(map[])
      && d.errorResponse.None?
      && d.errors.None?
  {
    match GetBody(req.body, f)
    case Err(e) => Err(e)
    case Ok(body) =>
      Ok(Logger(options, Data(
        info := map[
          "__url" := Str(req.url),
          "__method" := Str(req.httpMethod),
          "__params" := req.params,
          "__body" := body,
          "domain" := Str(options.domain),
          "service" := Str(options.service),
          "module" := Str(options.moduleLabel)],
        logs := map[],
        response := Obj(map[]),
        errorResponse := None,
        errors := None)))
  }

  /**
   * `add(key, value)`: nothing when only errors are recorded; otherwise
   * `value` goes to `key`, or to the least free `"<key> (<n>)"` when the
   * slot of `key` reads truthy. Only `LOGS` changes, in exactly one slot.
   */
  function Add(l: Logger, key: string, value: Value): (r: Logger)
    ensures r.options == l.options
    ensures r.data.info == l.data.info && r.data.errors == l.data.errors
    ensures r.data.response == l.data.response && r.data.errorResponse == l.data.errorResponse
    ensures l.options.onlyErrors ==> r == l
    ensures !l.options.onlyErrors ==>
              exists k :: Probe.LeastFreeSlot(l.data.logs, key, k) && r.data.logs == l.data.logs[k := value]
  {
    if l.options.onlyErrors then l
    else l.(data := l.data.(logs := Probe.Insert(l.data.logs, key, value)))
  }

  /** The entry `{ value, code }` that `error` stores; an omitted code is `undefined`. */
  function ErrorEntry(value: Value, code: Option<string>): Value
  {
    Obj(map["value" := value, "code" := if code.Some? then Str(code.value) else Undefined])
  }

  /** The `ERRORS` map as `error` sees it: `{}` when absent. */
  function ErrorsOf(d: Data): map<string, Value>
  {
    d.errors.GetOr(map[])
  }

  /**
   * `error(key, value, code)`: creates `ERRORS` if absent and stores the
   * entry under `key` or its least free suffixed key. It ignores the
   * only-errors flag and touches nothing but `ERRORS`.
   */
  function Error(l: Logger, key: string, value: Value, code: Option<string>): (r: Logger)
    ensures r.options == l.options
    ensures r.data.info == l.data.info && r.data.logs == l.data.logs
    ensures r.data.response == l.data.response && r.data.errorResponse == l.data.errorResponse
    ensures r.data.errors.Some?
    ensures exists k :: Probe.LeastFreeSlot(ErrorsOf(l.data), key, k)
                        && r.data.errors.value == ErrorsOf(l.data)[k := ErrorEntry(value, code)]
  {
    var errors := ErrorsOf(l.data);
    l.(data := l.data.(errors := Some(Probe.Insert(errors, key, ErrorEntry(value, code)))))
  }

  /** `typeof payload === 'string' && payload ? JSON.parse(payload) : payload`; `None` when parsing throws. */
  function Normalize(f: Foreign, payload: Value): Option<Value>
  {
    if payload.Str? && payload.s != "" then f.jsonParse(payload.s) else Some(payload)
  }

  /** The console line of a completed `finish`. */
  function Print(options: Options, isError: bool, statusCode: int, d: Data): Event
  {
    var level := if isError then ConsoleError else ConsoleLog;
    if !options.colors then Printed(level, None, d)
    else Printed(level, Some(if 200 <= statusCode && statusCode <= 300 then Cyan else Red), d)
  }

  /**
   * `finish(payload, isError, statusCode)`. On success the normalised
   * payload becomes `RESPONSE`, with `statusCode` set when it is of object
   * type; on error it becomes `ERROR_RESPONSE`, with `statusCode` set when
   * it is truthy. A throw inside (bad JSON, a property set on `null` or a
   * primitive) is caught: the error and the record are dumped instead.
   * It never raises and always writes exactly one event.
   */
  function Finish(l: Logger, f: Foreign, payload: Value, isError: bool, statusCode: int): (r: Finished)
    ensures |r.output| == 1
    ensures r.output[0].record == r.logger.data
    ensures r.logger.options == l.options
    ensures r.logger.data.info == l.data.info && r.logger.data.logs == l.data.logs
    ensures r.logger.data.errors == l.data.errors
    ensures !isError ==> r.logger.data.errorResponse == l.data.errorResponse
    ensures isError ==> r.logger.data.response == l.data.response
    ensures r.output[0].Printed? ==> (r.output[0].level == ConsoleError <==> isError)
    ensures r.output[0].Printed? ==> (r.output[0].color.Some? <==> l.options.colors)
    ensures r.output[0].Printed? ==>
              (r.output[0].color == Some(Cyan) <==> l.options.colors && 200 <= statusCode <= 300)
  {
    match Normalize(f, payload)
    case None => Finished(l, [Failed(SyntaxError, l.data)])
    case Some(v) =>
      if !isError then
        var d := l.data.(response := v);
        if TypeOf(v) != ObjectType then Finished(l.(data := d), [Print(l.options, isError, statusCode, d)])
        else match SetProperty(v, "statusCode", Num(statusCode))
          case Err(e) => Finished(l.(data := d), [Failed(e, d)])
          case Ok(v') =>
            var d' := d.(response := v');
            Finished(l.(data := d'), [Print(l.options, isError, statusCode, d')])
      else
        var d := l.data.(errorResponse := Some(v));
        if !Truthy(v) then Finished(l.(data := d), [Print(l.options, isError, statusCode, d)])
        else match SetProperty(v, "statusCode", Num(statusCode))
          case Err(e) => Finished(l.(data := d), [Failed(e, d)])
          case Ok(v') =>
            var d' := d.(errorResponse := Some(v'));
            Finished(l.(data := d'), [Print(l.options, isError, statusCode, d')])
  }
}

=== FILE: logger_properties.dfy ===
/**
 * Properties of the logger across several calls: repeated keys, the
 * only-errors flag, the `ERRORS` map never losing an entry, and the
 * outcomes of `finish`.
 */
module LoggerProperties {
  import opened Wrappers
  import opened Js
  import opened Keys
  import Probe
  import opened Logger

  /** A call a request handler makes on its logger. */
  datatype Call =
    | AddCall(key: string, value: Value)
    | ErrorCall(key: string, value: Value, code: Option<string>)
    | FinishCall(payload: Value, isError: bool, statusCode: int)

  function Perform(l: Logger, f: Foreign, c: Call): Logger
  {
    match c
    case AddCall(k, v) => Add(l, k, v)
    case ErrorCall(k, v, code) => Error(l, k, v, code)
    case FinishCall(p, e, s) => Finish(l, f, p, e, s).logger
  }

  /** The logger after the calls, in order. */
  function Run(l: Logger, f: Foreign, calls: seq<Call>): Logger
    decreases |calls|
  {
    if calls == [] then l else Run(Perform(l, f, calls[0]), f, calls[1..])
  }

  /** With only errors recorded, no sequence of calls changes `LOGS`. */
  lemma {:induction false} OnlyErrorsKeepsLogs(l: Logger, f: Foreign, calls: seq<Call>)
    requires l.options.onlyErrors
    ensures Run(l, f, calls).data.logs == l.data.logs
    ensures Run(l, f, calls).options == l.options
    decreases |calls|
  {
    if calls != [] {
      OnlyErrorsKeepsLogs(Perform(l, f, calls[0]), f, calls[1..]);
    }
  }

  /** `add` over a sequence of values, all under the same key. */
  function AddAll(l: Logger, key: string, vs: seq<Value>): Logger
    decreases |vs|
  {
    if vs == [] then l else Add(AddAll(l, key, vs[..|vs| - 1]), key, vs[|vs| - 1])
  }

  /** Neither the key nor any of its suffixed forms is in use. */
  ghost predicate UnusedFamily(m: map<string, Value>, key: string)
  {
    && key !in m
    && key !in ObjectPrototypeKeys
    && forall j: nat :: j >= 1 ==> Suffix(key, j) !in m
  }

  /** `add` writes its value to the least free slot and nowhere else. */
  lemma AddWritesSlot(l: Logger, key: string, v: Value, target: string)
    requires !l.options.onlyErrors
    requires Probe.LeastFreeSlot(l.data.logs, key, target)
    ensures Add(l, key, v).options == l.options
    ensures Add(l, key, v).data.logs == l.data.logs[target := v]
  {
    Probe.SlotForIsOnlyChoice(l.data.logs, key, target);
  }

  /** The slot the n-th value added under a fresh key lands in (n counts from 0). */
  function RepeatSlot(key: string, n: nat): string
  {
    if n == 0 then key else Suffix(key, n)
  }

  /** `logs` holds vs[0] at the key and vs[i] at `"<key> (i)"`, and no later suffix. */
  ghost predicate Filled(logs: map<string, Value>, key: string, vs: seq<Value>)
  {
    && (|vs| == 0 <==> key !in logs)
    && (forall i :: 0 <= i < |vs| ==> RepeatSlot(key, i) in logs && logs[RepeatSlot(key, i)] == vs[i])
    && (forall j: nat :: j >= |vs| && j >= 1 ==> Suffix(key, j) !in logs)
  }

  /** One more `add` of the key fills the next suffixed slot. */
  lemma {:induction false} FillStep(l: Logger, key: string, vs: seq<Value>)
    requires |vs| > 0
    requires !l.options.onlyErrors
    requires key !in ObjectPrototypeKeys
    requires Filled(l.data.logs, key, vs[..|vs| - 1])
    requires forall i :: 0 <= i < |vs| - 1 ==> Truthy(vs[i])
    ensures Add(l, key, vs[|vs| - 1]).data.logs == l.data.logs[RepeatSlot(key, |vs| - 1) := vs[|vs| - 1]]
    ensures RepeatSlot(key, |vs| - 1) !in l.data.logs
    ensures Filled(Add(l, key, vs[|vs| - 1]).data.logs, key, vs)
  {
    var m := l.data.logs;
    var n := |vs| - 1;
    var prefix := vs[..n];
    var v := vs[n];
    var target := RepeatSlot(key, n);
    assert Probe.LeastFreeSlot(m, key, target) by {
      if n > 0 {
        assert m[RepeatSlot(key, 0)] == prefix[0];
        Probe.SuffixNotInherited(key, n);
        forall j | 1 <= j < n
          ensures Probe.Occupied(m, Suffix(key, j))
        {
          assert m[RepeatSlot(key, j)] == prefix[j];
        }
      }
    }
    AddWritesSlot(l, key, v, target);
    var m' := m[target := v];
    forall i | 0 <= i < |vs|
      ensures RepeatSlot(key, i) in m' && m'[RepeatSlot(key, i)] == vs[i]
    {
      if i < n {
        assert m[RepeatSlot(key, i)] == prefix[i];
        if i > 0 && Suffix(key, i) == Suffix(key, n) {
          SuffixInjective(key, i, n);
        }
        assert RepeatSlot(key, i) != target;
      }
    }
    forall j: nat | j >= |vs| && j >= 1
      ensures Suffix(key, j) !in m'
    {
      if n > 0 && Suffix(key, j) == Suffix(key, n) {
        SuffixInjective(key, j, n);
      }
    }
  }

  /**
   * Adding values v0, v1, ... under one fresh key, all truthy, stores v0
   * at the key and the i-th repeat at `"<key> (i)"`; earlier entries of
   * other keys survive.
   */
  lemma {:induction false} RepeatedAdds(l: Logger, key: string, vs: seq<Value>)
    requires !l.options.onlyErrors
    requires UnusedFamily(l.data.logs, key)
    requires forall i :: 0 <= i < |vs| ==> Truthy(vs[i])
    ensures AddAll(l, key, vs).options == l.options
    ensures Filled(AddAll(l, key, vs).data.logs, key, vs)
    ensures forall k :: k in l.data.logs ==>
              k in AddAll(l, key, vs).data.logs && AddAll(l, key, vs).data.logs[k] == l.data.logs[k]
    decreases |vs|
  {
    if vs != [] {
      var n := |vs|;
      var prefix := vs[..n - 1];
      RepeatedAdds(l, key, prefix);
      var p := AddAll(l, key, prefix);
      var r := Add(p, key, vs[n - 1]);
      assert AddAll(l, key, vs) == r;
      FillStep(p, key, vs);
      assert r.data.logs == p.data.logs[RepeatSlot(key, n - 1) := vs[n - 1]];
      forall k | k in l.data.logs
        ensures k in r.data.logs && r.data.logs[k] == l.data.logs[k]
      {
        assert k in p.data.logs;
      }
    }
  }

  /** Every stored error entry reads truthy (it is an object). */
  ghost predicate ErrorsTruthy(d: Data)
  {
    forall k :: k in ErrorsOf(d) ==> Truthy(ErrorsOf(d)[k])
  }

  /**
   * While error entries are truthy, `error` never overwrites: it adds one
   * new key and keeps every earlier entry.
   */
  lemma ErrorNeverOverwrites(l: Logger, key: string, value: Value, code: Option<string>)
    requires ErrorsTruthy(l.data)
    ensures var r := Error(l, key, value, code);
      && ErrorsTruthy(r.data)
      && |ErrorsOf(r.data)| == |ErrorsOf(l.data)| + 1
      && (forall k :: k in ErrorsOf(l.data) ==> k in ErrorsOf(r.data) && ErrorsOf(r.data)[k] == ErrorsOf(l.data)[k])
  {
    var e := ErrorsOf(l.data);
    var r := Error(l, key, value, code);
    var k :| Probe.LeastFreeSlot(e, key, k) && r.data.errors.value == e[k := ErrorEntry(value, code)];
    assert !Probe.Occupied(e, k) by {
      Probe.SlotForIsOnlyChoice(e, key, k);
    }
    assert k !in e;
  }

  /** No sequence of calls puts a falsy value into `ERRORS`. */
  lemma {:induction false} RunKeepsErrorsTruthy(l: Logger, f: Foreign, calls: seq<Call>)
    requires ErrorsTruthy(l.data)
    ensures ErrorsTruthy(Run(l, f, calls).data)
    decreases |calls|
  {
    if calls != [] {
      match calls[0] {
        case ErrorCall(k, v, code) =>
          ErrorNeverOverwrites(l, k, v, code);
          assert Perform(l, f, calls[0]) == Error(l, k, v, code);
        case AddCall(k, v) =>
          assert ErrorsOf(Perform(l, f, calls[0]).data) == ErrorsOf(l.data);
        case FinishCall(p, e, st) =>
          assert ErrorsOf(Perform(l, f, calls[0]).data) == ErrorsOf(l.data);
      }
      RunKeepsErrorsTruthy(Perform(l, f, calls[0]), f, calls[1..]);
    }
  }

  /**
   * In the life of any logger, a repeated error key never overwrites an
   * earlier error: `error` always adds a fresh entry.
   */
  lemma {:induction false} ErrorsAreNeverOverwritten(req: RequestModel, options: Options, f: Foreign, calls: seq<Call>,
                                  key: string, value: Value, code: Option<string>)
    requires New(req, options, f).Ok?
    ensures var l := Run(New(req, options, f).value, f, calls);
            var r := Error(l, key, value, code);
      && |ErrorsOf(r.data)| == |ErrorsOf(l.data)| + 1
      && (forall k :: k in ErrorsOf(l.data) ==> k in ErrorsOf(r.data) && ErrorsOf(r.data)[k] == ErrorsOf(l.data)[k])
  {
    var l0 := New(req, options, f).value;
    RunKeepsErrorsTruthy(l0, f, calls);
    ErrorNeverOverwrites(Run(l0, f, calls), key, value, code);
  }

  /**
   * `LOGS` keys are chosen by truthiness, not presence: a falsy entry is
   * overwritten in place by the next `add` of the same key.
   */
  lemma AddOverwritesFalsyEntry(l: Logger, key: string, value: Value)
    requires !l.options.onlyErrors
    requires key in l.data.logs && !Truthy(l.data.logs[key])
    ensures Add(l, key, value).data.logs == l.data.logs[key := value]
  {
    assert Probe.LeastFreeSlot(l.data.logs, key, key);
    AddWritesSlot(l, key, value, key);
  }

  /** `add(key, v)` twice with a truthy first value keeps both, the second under `"<key> (1)"`. */
  lemma {:induction false} AddTwiceKeepsBoth(l: Logger, key: string, v1: Value, v2: Value)
    requires !l.options.onlyErrors
    requires UnusedFamily(l.data.logs, key)
    requires Truthy(v1)
    ensures var logs := Add(Add(l, key, v1), key, v2).data.logs;
      key in logs && logs[key] == v1 && Suffix(key, 1) in logs && logs[Suffix(key, 1)] == v2
  {
    RepeatedAdds(l, key, [v1]);
    assert [v1][..0] == [];
    assert AddAll(l, key, [v1]) == Add(l, key, v1);
    FillStep(Add(l, key, v1), key, [v1, v2]);
    assert [v1, v2][..1] == [v1];
    assert RepeatSlot(key, 0) == key;
    assert RepeatSlot(key, 1) == Suffix(key, 1);
  }

  /** A success body that is an object, given as such or as JSON text, is recorded with the status code. */
  lemma FinishSuccessRecordsStatus(l: Logger, f: Foreign, payload: Value, statusCode: int, body: map<string, Value>)
    requires Normalize(f, payload) == Some(Obj(body))
    ensures var r := Finish(l, f, payload, false, statusCode);
      && r.logger.data.response == Obj(body["statusCode" := Num(statusCode)])
      && r.logger.data.errorResponse == l.data.errorResponse
      && r.output == [Print(l.options, false, statusCode, r.logger.data)]
      && r.output[0].level == ConsoleLog
  {
  }

  /** An error body that is an object is recorded in `ERROR_RESPONSE`; `RESPONSE` keeps its value. */
  lemma FinishErrorRecordsStatus(l: Logger, f: Foreign, payload: Value, statusCode: int, body: map<string, Value>)
    requires Normalize(f, payload) == Some(Obj(body))
    ensures var r := Finish(l, f, payload, true, statusCode);
      && r.logger.data.errorResponse == Some(Obj(body["statusCode" := Num(statusCode)]))
      && r.logger.data.response == l.data.response
      && r.output == [Print(l.options, true, statusCode, r.logger.data)]
      && r.output[0].level == ConsoleError
  {
  }

  /** An error finish straight after construction leaves `RESPONSE` as the initial `{}`. */
  lemma ErrorFinishKeepsEmptyResponse(req: RequestModel, options: Options, f: Foreign,
                                      payload: Value, statusCode: int)
    requires New(req, options, f).Ok?
    ensures Finish(New(req, options, f).value, f, payload, true, statusCode).logger.data.response == Obj(map[])
  {
  }

  /** Text that is not JSON makes `finish` throw before any write: the record is dumped unchanged. */
  lemma FinishBadJsonDumpsRecord(l: Logger, f: Foreign, payload: Value, isError: bool, statusCode: int)
    requires payload.Str? && payload.s != "" && f.jsonParse(payload.s).None?
    ensures Finish(l, f, payload, isError, statusCode) == Finished(l, [Failed(SyntaxError, l.data)])
  {
  }

  /** A `null` success body is stored, then setting its status code throws. */
  lemma FinishNullResponseThrows(l: Logger, f: Foreign, payload: Value, statusCode: int)
    requires Normalize(f, payload) == Some(Null)
    ensures var r := Finish(l, f, payload, false, statusCode);
      && r.logger.data.response == Null
      && r.output == [Failed(TypeError, r.logger.data)]
  {
  }

  /** A truthy primitive error body is stored, then setting its status code throws. */
  lemma FinishPrimitiveErrorThrows(l: Logger, f: Foreign, payload: Value, statusCode: int, v: Value)
    requires Normalize(f, payload) == Some(v)
    requires Truthy(v) && !(v.Obj? || v.Arr?)
    ensures var r := Finish(l, f, payload, true, statusCode);
      && r.logger.data.errorResponse == Some(v)
      && r.output == [Failed(TypeError, r.logger.data)]
  {
  }

  /** A primitive success body (the empty string included) is stored as is, without status code. */
  lemma FinishPrimitiveSuccessUnchanged(l: Logger, f: Foreign, payload: Value, statusCode: int, v: Value)
    requires Normalize(f, payload) == Some(v)
    requires v.Undefined? || v.Bool? || v.Num? || v.Str?
    ensures var r := Finish(l, f, payload, false, statusCode);
      && r.logger.data.response == v
      && r.output == [Print(l.options, false, statusCode, r.logger.data)]
  {
  }

  /** A falsy error body is stored as is, without status code, and printed with console.error. */
  lemma FinishFalsyErrorUnchanged(l: Logger, f: Foreign, payload: Value, statusCode: int, v: Value)
    requires Normalize(f, payload) == Some(v)
    requires !Truthy(v)
    ensures var r := Finish(l, f, payload, true, statusCode);
      && r.logger.data.errorResponse == Some(v)
      && r.output == [Print(l.options, true, statusCode, r.logger.data)]
  {
  }

  /** An array body, success or error, is stored unchanged (the statusCode write leaves it as is) and printed. */
  lemma FinishArrayStoredAndPrinted(l: Logger, f: Foreign, payload: Value, isError: bool, statusCode: int,
                                    items: seq<Value>)
    requires Normalize(f, payload) == Some(Arr(items))
    ensures var r := Finish(l, f, payload, isError, statusCode);
      && (!isError ==> r.logger.data.response == Arr(items) && r.logger.data.errorResponse == l.data.errorResponse)
      && (isError ==> r.logger.data.errorResponse == Some(Arr(items)) && r.logger.data.response == l.data.response)
      && r.output == [Print(l.options, isError, statusCode, r.logger.data)]
  {
  }
}

=== FILE: probe.dfy ===
/**
 * Collision-safe insertion into a plain-object map, as `Logger.add` and
 * `Logger.error` do it: a key whose slot reads truthy is replaced by the
 * first `"<key> (<n>)"`, n = 1, 2, ..., whose slot reads falsy.
 */
module Probe {
  import opened Js
  import opened Keys

  /**
   * `if (m[k])` on a plain object: an own property counts by its
   * truthiness; an absent one reads the inherited member, if any.
   */
  predicate Occupied(m: map<string, Value>, k: string)
  {
    if k in m then Truthy(m[k]) else k in ObjectPrototypeKeys
  }

  /** No inherited member name ends in `)`, so suffixed keys are never inherited. */
  lemma SuffixNotInherited(key: string, n: nat)
    ensures Suffix(key, n) !in ObjectPrototypeKeys
  {
    var s := Suffix(key, n);
    assert s[|s| - 1] == ')';
  }

  /** The keys tried by the first n - 1 probes: Suffix(key, j) for 1 <= j < n. */
  ghost function Probed(key: string, n: nat): set<string>
  {
    if n <= 1 then {} else Probed(key, n - 1) + {Suffix(key, n - 1)}
  }

  lemma {:induction false} ProbedMembers(key: string, n: nat, x: string)
    ensures x in Probed(key, n) <==> exists j :: 1 <= j < n && x == Suffix(key, j)
    decreases n
  {
    if n > 1 {
      ProbedMembers(key, n - 1, x);
    }
  }

  /** The probes are pairwise distinct, so n - 1 probes try n - 1 keys. */
  lemma {:induction false} ProbedSize(key: string, n: nat)
    requires 1 <= n
    ensures |Probed(key, n)| == n - 1
    decreases n
  {
    if n > 1 {
      ProbedSize(key, n - 1);
      if Suffix(key, n - 1) in Probed(key, n - 1) {
        ProbedMembers(key, n - 1, Suffix(key, n - 1));
        var j :| 1 <= j < n - 1 && Suffix(key, n - 1) == Suffix(key, j);
        SuffixInjective(key, j, n - 1);
        assert false;
      }
    }
  }

  lemma SubsetSize<T>(a: set<T>, b: set<T>)
    requires a <= b
    ensures |a| <= |b|
  {
    if a != {} {
      var x :| x in a;
      SubsetSize(a - {x}, b - {x});
    }
  }

  /**
   * Pigeonhole: if the first n - 1 probes all hit occupied slots, the map
   * holds at least n - 1 entries.
   */
  lemma Pigeonhole(m: map<string, Value>, key: string, n: nat)
    requires 1 <= n
    requires forall j :: 1 <= j < n ==> Occupied(m, Suffix(key, j))
    ensures n - 1 <= |m|
  {
    ProbedSize(key, n);
    forall x | x in Probed(key, n)
      ensures x in m.Keys
    {
      ProbedMembers(key, n, x);
      var j :| 1 <= j < n && x == Suffix(key, j);
      SuffixNotInherited(key, j);
    }
    SubsetSize(Probed(key, n), m.Keys);
  }

  /** The do-while probe, continued from counter n. */
  function ProbeFrom(m: map<string, Value>, key: string, n: nat): (r: nat)
    requires 1 <= n
    requires forall j :: 1 <= j < n ==> Occupied(m, Suffix(key, j))
    ensures n <= r <= |m| + 1
    ensures !Occupied(m, Suffix(key, r))
    ensures forall j :: 1 <= j < r ==> Occupied(m, Suffix(key, j))
    decreases |m| + 1 - n
  {
    Pigeonhole(m, key, n);
    if !Occupied(m, Suffix(key, n)) then n
    else
      Pigeonhole(m, key, n + 1);
      ProbeFrom(m, key, n + 1)
  }

  /**
   * The counter the probe stops at: the least n >= 1 whose suffixed slot
   * is free. It is at most |m| + 1, so the probe terminates.
   */
  function FreeIndex(m: map<string, Value>, key: string): (r: nat)
    ensures 1 <= r <= |m| + 1
    ensures !Occupied(m, Suffix(key, r))
    ensures forall j :: 1 <= j < r ==> Occupied(m, Suffix(key, j))
  {
    ProbeFrom(m, key, 1)
  }

  /**
   * The intended target of an insertion of `key`: `key` itself when its
   * slot reads falsy, otherwise the least free suffixed key.
   */
  ghost predicate LeastFreeSlot(m: map<string, Value>, key: string, k: string)
  {
    if !Occupied(m, key) then k == key
    else exists n: nat :: 1 <= n && k == Suffix(key, n) && !Occupied(m, k)
                          && forall j :: 1 <= j < n ==> Occupied(m, Suffix(key, j))
  }

  /** The key an insertion of `key` writes to. */
  function SlotFor(m: map<string, Value>, key: string): (k: string)
    ensures LeastFreeSlot(m, key, k)
    ensures !Occupied(m, k)
  {
    if Occupied(m, key) then Suffix(key, FreeIndex(m, key)) else key
  }

  /** There is only one least free slot, so SlotFor is the only correct choice. */
  lemma LeastFreeSlotUnique(m: map<string, Value>, key: string, k1: string, k2: string)
    requires LeastFreeSlot(m, key, k1)
    requires LeastFreeSlot(m, key, k2)
    ensures k1 == k2
  {
    if Occupied(m, key) {
      var n1: nat :| 1 <= n1 && k1 == Suffix(key, n1) && !Occupied(m, k1)
                     && forall j :: 1 <= j < n1 ==> Occupied(m, Suffix(key, j));
      var n2: nat :| 1 <= n2 && k2 == Suffix(key, n2) && !Occupied(m, k2)
                     && forall j :: 1 <= j < n2 ==> Occupied(m, Suffix(key, j));
      assert n1 < n2 ==> Occupied(m, Suffix(key, n1));
      assert n2 < n1 ==> Occupied(m, Suffix(key, n2));
    }
  }

  /** A least free slot is free. */
  lemma SlotForIsOnlyChoice(m: map<string, Value>, key: string, k: string)
    requires LeastFreeSlot(m, key, k)
    ensures k == SlotFor(m, key)
    ensures !Occupied(m, k)
  {
    LeastFreeSlotUnique(m, key, k, SlotFor(m, key));
  }

  /**
   * `m[key'] = v` after probing. Exactly one slot changes; every entry
   * that read truthy keeps its value, so no live entry is lost.
   */
  function Insert(m: map<string, Value>, key: string, v: Value): (r: map<string, Value>)
    ensures exists k :: LeastFreeSlot(m, key, k) && k in r && r[k] == v
                        && r.Keys == m.Keys + {k}
                        && forall k' :: k' in m && k' != k ==> r[k'] == m[k']
    ensures forall k' :: k' in m && Truthy(m[k']) ==> k' in r && r[k'] == m[k']
  {
    m[SlotFor(m, key) := v]
  }
}

=== FILE: pubsub.dfy ===
/** Detection of a message-queue push envelope `{message: {data, ...}}`. */
module Pubsub {
  import opened Wrappers
  import opened Js

  /** The structural shape of an envelope: an object whose `message` object has `data`. */
  predicate IsEnvelope(body: Value)
  {
    && body.Obj?
    && "message" in body.props
    && body.props["message"].Obj?
    && "data" in body.props["message"].props
  }

  /** The payload an envelope carries. */
  function EnvelopeData(body: Value): Value
    requires IsEnvelope(body)
  {
    body.props["message"].props["data"]
  }

  /**
   * `isPubsub(body)`: the structural test followed by `isBase64` on the
   * payload. `isBase64` is a foreign library predicate, passed in.
   * A `message` that is `null` passes `typeof === 'object'` and then makes
   * `'data' in null` raise.
   */
  function IsPubsub(body: Value, isBase64: Value -> bool): (r: Result<bool, JsError>)
    ensures r.Err? <==> body.Obj? && "message" in body.props && body.props["message"] == Null
    ensures r.Err? ==> r.error == TypeError
    ensures r == Ok(true) <==> IsEnvelope(body) && isBase64(EnvelopeData(body))
  {
    if !(TypeOf(body) == ObjectType && body != Null) then Ok(false)
    else if In(body, "message") != Ok(true) then Ok(false)
    else
      var message := Get(body, "message");
      if TypeOf(message) != ObjectType then Ok(false)
      else match In(message, "data")
        case Err(e) => Err(e)
        case Ok(hasData) =>
          if !hasData then Ok(false)
          else Ok(isBase64(Get(message, "data")))
  }

  /** Whatever `isBase64` says, a value that is not an object is never an envelope. */
  lemma NonObjectIsNotPubsub(body: Value, isBase64: Value -> bool)
    requires !(body.Obj? || body.Arr?)
    ensures IsPubsub(body, isBase64) == Ok(false)
  {
  }

  /** The envelope of the repository's test is detected once its data is base64. */
  lemma TestEnvelopeDetected(isBase64: Value -> bool, publishTime: string)
    requires isBase64(Str("ewogICAgImhvbGEiOiAibXVuZG8iCn0="))
    ensures IsPubsub(Obj(map["message" := Obj(map["data" := Str("ewogICAgImhvbGEiOiAibXVuZG8iCn0="),
                                                    "publishTime" := Str(publishTime)])]),
                     isBase64) == Ok(true)
  {
  }
}

=== FILE: request_context.dfy ===
/**
 * The ambient "current logger" of a request. The async-local store is
 * modelled as an explicit value, the store visible on the calling chain,
 * that callers pass in; `runWithLogger` hands its callback a chain whose
 * store holds the logger.
 */
module RequestContext {
  import opened Wrappers
  import opened Js
  import opened Logger
  import LoggerProperties

  /** The single `RequestContext` object, identified by its allocation number. */
  datatype Instance = Instance(id: nat)

  /** Process-wide state: the lazily created singleton and the next object number to hand out. */
  datatype Runtime = Runtime(instance: Option<Instance>, nextId: nat)

  /** Process-wide state plus the logger objects, by reference. */
  datatype World = World(runtime: Runtime, loggers: Heap)

  /** What `asyncLocalStorage.getStore()` returns on the calling chain. */
  type Store = Option<LoggerRef>

  const NoContextMessage: string :=
    "No logger context available. Make sure you are inside a request context."

  /** `getInstance()`: creates the instance on first use, then always returns it. */
  function GetInstance(rt: Runtime): (r: (Runtime, Instance))
    ensures r.0.instance == Some(r.1)
    ensures rt.instance.Some? ==> r == (rt, rt.instance.value)
    ensures rt.instance.None? ==> r.1.id == rt.nextId && r.0.nextId == rt.nextId + 1
  {
    match rt.instance
    case Some(i) => (rt, i)
    case None =>
      var i := Instance(rt.nextId);
      (Runtime(Some(i), rt.nextId + 1), i)
  }

  /** Every call of `getInstance` after the first returns the first call's instance. */
  lemma {:induction false} GetInstanceIsSingleton(rt: Runtime, n: nat)
    ensures var first := GetInstance(rt);
            Repeat(first.0, n) == first.0 && GetInstance(Repeat(first.0, n)).1 == first.1
    decreases n
  {
    if n > 0 {
      GetInstanceIsSingleton(rt, n - 1);
    }
  }

  /** The runtime after n further calls of `getInstance`. */
  function Repeat(rt: Runtime, n: nat): Runtime
    decreases n
  {
    if n == 0 then rt else GetInstance(Repeat(rt, n - 1)).0
  }

  /** `runWithLogger(logger, callback)`: the callback runs on a chain whose store is `logger`. */
  function RunWithLogger<T>(logger: LoggerRef, callback: Store -> T): (r: T)
    ensures r == callback(Some(logger))
  {
    callback(Some(logger))
  }

  /** `getLogger()`: the logger bound on the calling chain, or none outside every run. */
  function GetLogger(store: Store): (r: Option<LoggerRef>)
    ensures r.None? <==> store.None?
    ensures store.Some? ==> r == Some(store.value)
  {
    store
  }

  /** `getCurrentLogger()`: the bound logger, or the no-context error. */
  function GetCurrentLogger(store: Store): (r: Result<LoggerRef, string>)
    ensures r.Err? <==> store.None?
    ensures r.Err? ==> r.error == NoContextMessage
    ensures r.Ok? ==> Some(r.value) == store
  {
    match store
    case None => Err(NoContextMessage)
    case Some(l) => Ok(l)
  }

  /** `getRequestLogger()`: `getInstance().getCurrentLogger()`. */
  function GetRequestLogger(w: World, store: Store): (r: (World, Result<LoggerRef, string>))
    ensures r.1.Err? <==> store.None?
    ensures r.1.Err? ==> r.1.error == NoContextMessage
    ensures r.1.Ok? ==> Some(r.1.value) == store
    ensures r.0.runtime.instance.Some?
    ensures w.runtime.instance.Some? ==> r.0 == w
    ensures r.0.loggers == w.loggers
  {
    var (rt, _) := GetInstance(w.runtime);
    (w.(runtime := rt), GetCurrentLogger(store))
  }

  /**
   * Inside `runWithLogger(l, ...)`, `getLogger()` is `l` and
   * `getCurrentLogger()` succeeds with `l`, however the runs nest; outside
   * every run there is no logger and `getCurrentLogger()` fails.
   */
  lemma GetLoggerInsideRun(outer: LoggerRef, inner: LoggerRef)
    ensures RunWithLogger(outer, GetLogger) == Some(outer)
    ensures RunWithLogger(outer, GetCurrentLogger) == Ok(outer)
    ensures RunWithLogger(outer, (s: Store) => RunWithLogger(inner, GetLogger)) == Some(inner)
    ensures GetLogger(None) == None
    ensures GetCurrentLogger(None) == Err(NoContextMessage)
  {
  }

  /** `getRequestLogger()` inside `runWithLogger(l, ...)` is `l`; outside every run it fails. */
  lemma GetRequestLoggerInsideRun(w: World, l: LoggerRef)
    ensures RunWithLogger(l, (s: Store) => GetRequestLogger(w, s).1) == Ok(l)
    ensures GetRequestLogger(w, None).1 == Err(NoContextMessage)
  {
  }

  /** The store refers to a live logger when it refers to one at all. */
  predicate Valid(w: World, store: Store)
  {
    store.Some? ==> store.value in w.loggers
  }

  /** `addLog(key, value)`: `add` on the bound logger; nothing when none is bound. */
  function AddLog(w: World, store: Store, key: string, value: Value): (r: World)
    requires Valid(w, store)
    ensures r.runtime == GetInstance(w.runtime).0
    ensures r.loggers.Keys == w.loggers.Keys
    ensures store.None? ==> r.loggers == w.loggers
    ensures store.Some? ==> r.loggers == w.loggers[store.value := Add(w.loggers[store.value], key, value)]
  {
    var (rt, _) := GetInstance(w.runtime);
    match GetLogger(store)
    case None => World(rt, w.loggers)
    case Some(l) => World(rt, w.loggers[l := Add(w.loggers[l], key, value)])
  }

  /** `addError(key, value, code)`: `error` on the bound logger; nothing when none is bound. */
  function AddError(w: World, store: Store, key: string, value: Value, code: Option<string>): (r: World)
    requires Valid(w, store)
    ensures r.runtime == GetInstance(w.runtime).0
    ensures r.loggers.Keys == w.loggers.Keys
    ensures store.None? ==> r.loggers == w.loggers
    ensures store.Some? ==> r.loggers == w.loggers[store.value := Error(w.loggers[store.value], key, value, code)]
  {
    var (rt, _) := GetInstance(w.runtime);
    match GetLogger(store)
    case None => World(rt, w.loggers)
    case Some(l) => World(rt, w.loggers[l := Error(w.loggers[l], key, value, code)])
  }

  /** `addLog` on the chain that `runWithLogger(l, ...)` starts changes logger `l`, by `add`, and no other. */
  lemma AddLogInsideRun(w: World, l: LoggerRef, key: string, value: Value)
    requires l in w.loggers
    ensures var r := RunWithLogger(l, (s: Store) => if Valid(w, s) then AddLog(w, s, key, value) else w);
      && r.loggers.Keys == w.loggers.Keys
      && r.loggers[l] == Add(w.loggers[l], key, value)
      && (forall m :: m in w.loggers && m != l ==> r.loggers[m] == w.loggers[m])
  {
  }

  /** A convenience call made on some chain, identified by the store it sees. */
  datatype Task =
    | LogTask(store: Store, key: string, value: Value)
    | ErrorTask(store: Store, key: string, value: Value, code: Option<string>)

  predicate AllValid(w: World, tasks: seq<Task>)
  {
    forall i :: 0 <= i < |tasks| ==> Valid(w, tasks[i].store)
  }

  function Perform(w: World, t: Task): (r: World)
    requires Valid(w, t.store)
    ensures r.loggers.Keys == w.loggers.Keys
  {
    match t
    case LogTask(s, k, v) => AddLog(w, s, k, v)
    case ErrorTask(s, k, v, c) => AddError(w, s, k, v, c)
  }

  /** The tasks of many chains, executed in one interleaved order. */
  function Interleave(w: World, tasks: seq<Task>): (r: World)
    requires AllValid(w, tasks)
    ensures r.loggers.Keys == w.loggers.Keys
    decreases |tasks|
  {
    if tasks == [] then w else Interleave(Perform(w, tasks[0]), tasks[1..])
  }

  /** The logger calls a given logger receives from the tasks, in order. */
  function CallsOn(tasks: seq<Task>, l: LoggerRef): seq<LoggerProperties.Call>
    decreases |tasks|
  {
    if tasks == [] then []
    else
      var rest := CallsOn(tasks[1..], l);
      if tasks[0].store != Some(l) then rest
      else match tasks[0]
        case LogTask(_, k, v) => [LoggerProperties.AddCall(k, v)] + rest
        case ErrorTask(_, k, v, c) => [LoggerProperties.ErrorCall(k, v, c)] + rest
  }

  /**
   * Isolation of interleaved requests: each logger ends exactly as if only
   * the tasks of its own chain had run, in their order.
   */
  lemma {:induction false} InterleavingIsIsolated(w: World, tasks: seq<Task>, l: LoggerRef, f: Foreign)
    requires AllValid(w, tasks)
    requires l in w.loggers
    ensures Interleave(w, tasks).loggers[l] == LoggerProperties.Run(w.loggers[l], f, CallsOn(tasks, l))
    decreases |tasks|
  {
    if tasks != [] {
      var w' := Perform(w, tasks[0]);
      assert AllValid(w', tasks[1..]) by {
        forall i | 0 <= i < |tasks[1..]|
          ensures Valid(w', tasks[1..][i].store)
        {
          assert tasks[1..][i] == tasks[i + 1];
        }
      }
      InterleavingIsIsolated(w', tasks[1..], l, f);
      var calls := CallsOn(tasks, l);
      if tasks[0].store == Some(l) {
        assert calls[1..] == CallsOn(tasks[1..], l);
      }
    }
  }

  /** With no logger bound, the convenience calls change no logger. */
  lemma {:induction false} UnboundTasksAreNoOps(w: World, tasks: seq<Task>)
    requires forall i :: 0 <= i < |tasks| ==> tasks[i].store.None?
    ensures Interleave(w, tasks).loggers == w.loggers
    decreases |tasks|
  {
    if tasks != [] {
      UnboundTasksAreNoOps(Perform(w, tasks[0]), tasks[1..]);
    }
  }
}

=== FILE: wrappers.dfy ===
/** Failure-carrying results used across the model. */
module Wrappers {

  /** A possibly absent value: an optional property, an empty context slot. */
  datatype Option<+T> = None | Some(value: T) {
    function GetOr(default: T): T
    {
      match this
      case Some(v) => v
      case None => default
    }
  }

  /** The outcome of an operation that may throw. */
  datatype Result<+T, +E> = Ok(value: T) | Err(error: E)
}
